=== FILE: README.md ===
# Lintap: a model of the PSX-pad parallel-port driver

Lintap is a Linux kernel driver for a "Megatap"-style adapter. The adapter
connects up to four PlayStation pads to a PC parallel port. The driver
bit-bangs the pads' serial protocol over the data register (command,
select and clock lines) and the status register (one data line per pad
slot). A shared kernel timer polls every adapter that holds its port. The
timer callback turns each pad's two active-low button bytes into two
absolute axes and ten keys for that pad's input device. Opening a pad's
input device claims the parallel port and arms the timer. Closing the
last open pad disarms the timer first and then releases the port.

The model has five modules:

- `Bytes`: bits of a byte and of a 16-bit word.
- `Protocol`: the bus engine. It covers selecting, deselecting, sending a
  command byte and polling all four slots. The driver's port accesses are
  modelled as a trace of `BusOp`s (data writes, status reads, and markers
  for the delays). The status register is a stream indexed by the ordinal
  of the read.
- `PadState`: translating the stored button bytes into axis values and key
  states.
- `Lifecycle`: use counts, port claims and the timer flag. It covers
  opening and closing a pad, the two "is it still required" scans, and the
  invariant they keep. Opening and closing also return their flag changes
  in order as `Effect`s, so the disarm-before-release order is part of the
  model.
- `Scheduler`: the timer callback over the list of adapters.

In several places the code does not match its own comments. The model
follows the code in each:

- The comment on the second select write (lintap.c:187) says the command
  line goes high with the clock. The write at lintap.c:188 sends the
  clock line alone, so the command line is low. The model writes 0x04.
- The comment on closing (lintap.c:241-243) releases the port when no
  other pad on the adapter is in use. The code at lintap.c:249 also
  requires that the adapter still holds the port. The model has that
  test too.
- The same comment says the port is released and then the timer is
  checked and disabled. The code at lintap.c:251-253 disables the timer
  first and releases the port second. The model follows the code:
  `DisarmTimer` comes before `ReleasePort`.
- The comment on the select-all constant (lintap.c:29) calls 0x02 bit 2
  of the data register. It is bit 1. The model uses the value 0x02.
- The comment on `check_timer_required` (lintap.c:148) says it asks
  whether any adapter holds a claim on its port. The code at
  lintap.c:153-157 asks whether any adapter's port is required, which
  looks at the pads' use counts and not at the claims. Read as the
  comment says, the check on closing (lintap.c:252) would always see the
  closing adapter's own claim and never disarm. The model's
  `TimerRequired` is built on `PortRequired`, as in the code.
- The comment on the normal pad id (lintap.c:41) says 0x41 is the answer
  to the start command. The code stores the id captured during the 0x42
  command (lintap.c:301, 310). The model takes the id from that command.
- The comment on the pad array (lintap.c:98) says a NULL entry means no
  pad is connected. The array holds structures, not references, so no
  entry is NULL; an absent pad is detected by its id and status
  (lintap.c:313). The model does the same.

## Model

| member | source | states |
|---|---|---|
| Bytes.BitsDetermineByte | lintap.c:262-274 | Two bytes that agree on all eight bits are equal. This is how a byte rebuilt bit by bit on the bus is identified. |
| Protocol.LatchSample | lintap.c:275-277 | One status sample sets bit `i` of every slot's accumulator exactly when that slot's data line is high, and changes nothing else. |
| Protocol.ShiftStep | lintap.c:268-282 | After `k` right shifts, the low bit of the working command is bit `k` of the original command. The next shift leaves the command shifted by `k+1`. |
| Protocol.SendCommand | lintap.c:257-287 | Sending a byte produces exactly the command's bus trace. Each slot stores the byte it shifted in during the eight samples starting at `start`. |
| Protocol.CycleTrace | lintap.c:269-282 | One clock cycle writes the command bit with the clock low, then the same bit with the clock high. It reads the status register exactly once, after the clock-low write and before the clock-high write. |
| Protocol.CyclesWrites | lintap.c:266-283 | After `n` cycles, there are exactly `2n` data writes. Write `2i` is bit `i` of the command with the clock low, write `2i+1` is the same bit with the clock high, and there are `n` status reads. |
| Protocol.CommandTrace | lintap.c:266-286 | A command is exactly 16 data writes, least significant bit first, each bit sent clock-low then clock-high, with 8 status reads. |
| Protocol.ShiftInBit | lintap.c:276 | Latching in cycle `j` can only set bit `j`. That bit is set exactly when the slot's line is high, and every other bit keeps its value. |
| Protocol.CapturedUpToBits | lintap.c:266-277 | After `n` cycles, bit `i` of a slot's byte is set exactly when `i < n` and the slot's line was high in sample `i`. |
| Protocol.CapturedBits | lintap.c:262-277 | Every bit of a captured byte is the slot's data line in the matching sample: the byte is received least significant bit first. |
| Protocol.AcceptAll | lintap.c:306-322 | Every slot stores its id and status. The two button bytes are stored only when the id is 0x41 and the status 0x5A; otherwise both are 0xFF. |
| Protocol.ReadStatus | lintap.c:291-325 | A poll performs exactly select, the five commands (0x01, 0x42, 0, 0, 0) and deselect. Every slot stores the reading captured from its own data line in commands 1 to 4 (counting the 0x01 command as 0). |
| Protocol.FiveCommandTrace | lintap.c:181-197 | Select writes clock+select then clock alone and reads nothing. Deselect writes clock+select. After select and the first k of five 8-read commands, 8k reads have been made; with deselect, 40. |
| Protocol.PollTrace | lintap.c:291-325 | A poll writes 0x06 and 0x04, then the 16 writes of each of its five commands in order, then 0x06. Commands 0 to 4 (0x01 first) start at status reads 0, 8, 16, 24 and 32, and the poll reads 40 times in all. |
| Protocol.PollEndsDeselected | lintap.c:193-197 | Whatever the data register held before, a poll leaves it at clock+select: every slot is deselected. |
| Protocol.DeselectIdempotent | lintap.c:181-197 | Deselect, then select, then deselect leaves the data register where a single deselect leaves it. |
| Protocol.RespondingLine | lintap.c:32-35 | In a bus where each slot drives its own line, each slot's status bit is the bit that slot sends, unaffected by the other slots. |
| Protocol.CapturedAnswerBit | lintap.c:273-277 | Each bit captured for a slot in command `k` is the matching bit of the byte that slot answered. |
| Protocol.CapturedAnswer | lintap.c:262-277 | Round trip of one command: the byte captured for a slot is exactly the byte that slot sent. |
| Protocol.PollRoundTrip | lintap.c:291-325 | Round trip of a poll. A slot that answers id 0x41 and status 0x5A has its two button bytes stored unchanged. Any other answer stores that id and status with buttons 0xFF, 0xFF. |
| Protocol.FloatingSlotReadsIdle | lintap.c:306-322 | A slot whose data line stays high (no pad) reads id 0xFF, status 0xFF and released buttons. |
| PadState.ButtonWord | lintap.c:391 | The 16-bit button word has the first stored byte as its low bits and the second as its high bits, bit for bit (little-endian). |
| PadState.Axis | lintap.c:392-393 | An axis is +255 when only its positive direction is held, -255 when only its negative one is held, and 0 when both or neither are held. |
| PadState.KeyMaskNamesButton | lintap.c:74-77 | The mask `0x0100 << k` used for key `k < 8`, and the start and select masks for keys 8 and 9, is the mask of the control reported with key code `k`. |
| PadState.KeyPressedIffHeld | lintap.c:400-405 | Key `k` is reported pressed exactly when the control it stands for is held, i.e. its active-low bit is 0. |
| PadState.HeldInLowByte | lintap.c:86-87 | A control whose mask is bit `i` of the low byte is held exactly when bit `i` of the first stored byte is 0. |
| PadState.LowByteControls | lintap.c:74-77 | Right, left, down, up, start and select are bits 5, 7, 6, 4, 3 and 0 of the first button byte, active low. |
| PadState.HighByteKey | lintap.c:400-402 | Key `k < 8` is pressed exactly when bit `k` of the second button byte is 0. |
| PadState.TranslateReadsBytes | lintap.c:391-405 | The report in terms of the stored bytes. x is +255 for right alone, -255 for left alone, and 0 otherwise; y is the same with down and up. Keys 0-7 are the inverted bits of the second byte with codes TL2, TR2, TL, TR, Y, X, B, A. Start and select are the inverted bits 3 and 0 of the first byte. |
| PadState.TranslateFollowsControls | lintap.c:392-405 | Each reported key is pressed exactly when its named control is held. The axes follow right/left and down/up. |
| PadState.AbsentPadIsIdle | lintap.c:319-322 | All-ones button bytes, as stored for an absent pad, report centred axes and no key pressed. |
| Lifecycle.PortRequiredFrom | lintap.c:133-146 | The scan from slot `i` finds an open pad exactly when some pad at index `i` or later has a positive use count. |
| Lifecycle.PortRequired | lintap.c:133-146 | An adapter needs its port exactly when one of its pads has a positive use count. |
| Lifecycle.TimerRequired | lintap.c:149-160 | The timer is needed exactly when some adapter in the list needs its port. |
| Lifecycle.Open | lintap.c:222-239 | The count goes up by one and the result is 0 or -EBUSY. It is busy exactly when this is the pad's first open, the adapter is unclaimed and the claim fails; then the count is set to 0 and nothing else changes. A successful first claim leaves the port held and the timer armed. Every other case changes only the count. The new state is the effects applied in order, and the only effects are claiming this adapter's port and arming the timer. The timer is armed only if it was disarmed, and then only after the claim. |
| Lifecycle.Close | lintap.c:244-255 | The count goes down by one. The port is released exactly when the count reaches 0, the adapter holds the port and no other pad on it is open. Then the timer stays armed exactly when it was armed and another adapter needs it, and the release is the last effect. A disarm happens only when the timer was armed and no adapter still needs it, and it comes before the release. The only effects are disarming the timer and releasing this adapter's port. |
| Lifecycle.ValidArmedOnlyWhenClaimed | lintap.c:163-179 | Under the invariant, an armed timer always has at least one adapter whose port is held. |
| Lifecycle.PortRequiredFrame | lintap.c:133-146 | Two adapters whose pads agree on which counts are positive agree on whether they need their port. |
| Lifecycle.TimerRequiredFrame | lintap.c:149-160 | Two adapter lists that agree, adapter by adapter, on which need their ports agree on whether the timer is needed. |
| Lifecycle.TimerRequiredFrameAt | lintap.c:149-160 | Changing one adapter without changing whether it needs its port leaves the need for the timer unchanged. |
| Lifecycle.CountChangeFrame | lintap.c:227-255 | Changing one pad's use count changes nothing else: other adapters, the claim flag and the timer flag are unchanged. |
| Lifecycle.OpenWithoutClaimPreservesValid | lintap.c:227-239 | An open that needs no claim keeps the invariant. |
| Lifecycle.OpenWithClaimPreservesValid | lintap.c:199-211 | The first open on an unclaimed adapter, with a successful claim, keeps the invariant: the port is held and the timer armed. |
| Lifecycle.OpenPreservesValid | lintap.c:222-239 | Opening a pad keeps the invariant, whether the port claim succeeds or fails. |
| Lifecycle.CloseWithoutReleasePreservesValid | lintap.c:244-250 | A close that does not release the port keeps the invariant. |
| Lifecycle.CloseWithReleasePreservesValid | lintap.c:250-254 | A close that releases the port keeps the invariant. The timer is disarmed exactly when no other adapter needs it. |
| Lifecycle.ClosePreservesValid | lintap.c:244-255 | Closing a pad keeps the invariant. |
| Lifecycle.OpenClaimsBeforeArm | lintap.c:201-211 | Every intermediate state of an open, taken from a valid state, has a held port whenever the timer is armed: the port is claimed before the timer is armed. |
| Lifecycle.CloseDisarmsBeforeRelease | lintap.c:250-254 | Every intermediate state of a close, taken from a valid state, has a held port whenever the timer is armed: the timer is stopped before the last port goes. |
| Lifecycle.ReleaseBeforeDisarmIsUnsafe | lintap.c:250-254 | A concrete case where the close path disarms and then releases. Releasing first would pass through a state with the timer armed and no port held. |
| Lifecycle.Step | lintap.c:222-255 | Serving one open or close request keeps the adapters and pad slots. |
| Lifecycle.Run | lintap.c:222-255 | Serving a sequence of requests keeps the adapters and pad slots. |
| Lifecycle.Initial | lintap.c:421-428 | A freshly attached state has the requested number of adapters, each with four pad slots. |
| Lifecycle.InitialValid | lintap.c:126 | The zeroed initial state (no open pad, no claim, timer off) satisfies the invariant. |
| Lifecycle.RunPreservesValid | lintap.c:199-255 | Any sequence of opens and closes, with any claim outcomes, keeps the invariant. |
| Scheduler.StoreReadings | lintap.c:386-405 | Each slot takes its new reading and keeps its use count. Each report is made from that slot's new reading. |
| Scheduler.PollAdapter | lintap.c:381-408 | A claimed adapter is polled exactly once and every slot takes the reading of that poll, keeping its use count. An unclaimed adapter causes no bus traffic, no report and no change. |
| Scheduler.Tick | lintap.c:374-416 | Every adapter in the list is handled in order as above, and the timer is re-armed at the end. Claims and use counts are unchanged, so a tick of the armed timer keeps the invariant of the open and close paths. |
| Scheduler.SameUseKeepsValid | lintap.c:133-160 | The invariant depends only on claims, use counts and the timer flag, not on pad readings. |
| Scheduler.ReportsFollowAnswers | lintap.c:291-405 | End to end: a normal pad's report is the translation of the two button bytes it answered. Any other answer yields an idle report. |

## Left out

- Module init and exit, parport attach and detach, kmalloc, and
  input-device registration are left out: they build the list and the
  devices that the model takes as given.
- `input_report_*` and `input_sync` calls are left out. The reports are
  returned as values.
- `udelay` durations and the `bit_delay`/`cmd_delay` parameters are kept
  only as `Settle`/`Turnaround` markers in the bus trace.
- Timer concurrency is left out: `mod_timer`/`del_timer_sync` timing, and
  a tick racing an open or close. The timer flag is a plain boolean. A
  tick is assumed to run only while the timer is armed.
- The acknowledge line (0x80) is read with the rest of the status byte
  but never tested by the driver, so the model does not give it a meaning.
- Debug `printk` output is left out.
- `parport_claim` is not part of this model. Its outcome is a parameter of
  `Lifecycle.Open`.
- Lifecycle.Open: use counts are unbounded integers. The C `int`
  wrap-around after 2^31 opens is not modelled.
- PadState.ButtonWord: reads the two stored bytes as a little-endian
  16-bit word, which is what the `uint16_t *` cast in the callback reads on
  x86. Big-endian hosts are not modelled.
- PadState.Translate: the C complement `~button_status` is taken on an
  `int` after promotion. Only its low 16 bits meet the masks, so the model
  complements the 16-bit word.
- Requests naming a pad that does not exist are excluded by the
  precondition of `Lifecycle.Run`. The input layer only opens and closes
  registered devices.

=== FILE: bytes.dfy ===
/** Bits of the bytes and words the driver moves over the parallel port. */
module Bytes {

  /** Bit `i` of a byte, counting from the least significant bit. */
  predicate Bit(b: bv8, i: nat)
    requires i < 8
  {
    (b >> i) & 1 == 1
  }

  /** Bit `i` of a 16-bit word, counting from the least significant bit. */
  predicate WordBit(w: bv16, i: nat)
    requires i < 16
  {
    (w >> i) & 1 == 1
  }

  /** Two bytes with the same bits are equal. */
  lemma BitsDetermineByte(a: bv8, b: bv8)
    requires forall i :: 0 <= i < 8 ==> (Bit(a, i) <==> Bit(b, i))
    ensures a == b
  {
    assert Bit(a, 0) == Bit(b, 0) && Bit(a, 1) == Bit(b, 1) && Bit(a, 2) == Bit(b, 2) && Bit(a, 3) == Bit(b, 3);
    assert Bit(a, 4) == Bit(b, 4) && Bit(a, 5) == Bit(b, 5) && Bit(a, 6) == Bit(b, 6) && Bit(a, 7) == Bit(b, 7);
  }
}

=== FILE: lifecycle.dfy ===
/**
 * Opening and closing pads: per-pad use counts, the per-adapter port claim
 * and the shared polling timer (lintap.c:133-179, 199-255).
 *
 * The driver state is an immutable record. Claiming the parallel port may
 * fail for reasons outside the driver, so its outcome is a parameter. Each
 * operation also returns the flag changes it makes, in order, as a list of
 * `Effect`s, so that the order of disarming the timer and releasing the
 * port is part of what the model states.
 */
module Lifecycle {

  import opened Protocol

  /** One pad slot: its last reading and how often its input device is open. */
  datatype Pad = Pad(reading: PadReading, useCount: int)

  /** One adapter on a parallel port: whether it holds the port, and its pad slots. */
  datatype Adapter = Adapter(portClaimed: bool, pads: seq<Pad>)

  /** All adapters, in list order, and whether the shared polling timer is armed. */
  datatype Driver = Driver(adapters: seq<Adapter>, timerActive: bool)

  /** The error number returned when the port is busy. */
  const EBUSY: int := 16

  /** A flag change made by opening or closing a pad. */
  datatype Effect = ClaimPort(adapter: nat) | ReleasePort(adapter: nat) | ArmTimer | DisarmTimer

  /** Whether pad `p` of adapter `a` exists. */
  predicate ValidPad(d: Driver, a: nat, p: nat)
  {
    a < |d.adapters| && p < |d.adapters[a].pads|
  }

  /** Every adapter has its fixed number of pad slots. */
  predicate WellFormed(d: Driver)
  {
    forall a :: 0 <= a < |d.adapters| ==> |d.adapters[a].pads| == Slots
  }

  /** Two states with the same adapters and pad slots. */
  predicate SameShape(d: Driver, e: Driver)
  {
    && |d.adapters| == |e.adapters|
    && forall a :: 0 <= a < |d.adapters| ==> |d.adapters[a].pads| == |e.adapters[a].pads|
  }

  function UseCount(d: Driver, a: nat, p: nat): int
    requires ValidPad(d, a, p)
  {
    d.adapters[a].pads[p].useCount
  }

  /** The driver with one pad's use count replaced and nothing else changed. */
  function WithUseCount(d: Driver, a: nat, p: nat, n: int): Driver
    requires ValidPad(d, a, p)
  {
    var ad := d.adapters[a];
    d.(adapters := d.adapters[a := ad.(pads := ad.pads[p := ad.pads[p].(useCount := n)])])
  }

  /** The driver with one adapter's claim flag set to `claimed`. */
  function WithClaim(d: Driver, a: nat, claimed: bool): Driver
  {
    if a < |d.adapters| then d.(adapters := d.adapters[a := d.adapters[a].(portClaimed := claimed)]) else d
  }

  /** Whether some pad from index `i` on is open, scanning in slot order
      as the loop of lintap.c:138-143 does. */
  function PortRequiredFrom(pads: seq<Pad>, i: nat): (r: bool)
    requires i <= |pads|
    ensures r <==> exists j :: i <= j < |pads| && pads[j].useCount > 0
    decreases |pads| - i
  {
    if i == |pads| then false
    else if pads[i].useCount > 0 then true
    else PortRequiredFrom(pads, i + 1)
  }

  /** Whether an adapter still needs its port: some pad on it is open. */
  function PortRequired(ad: Adapter): (r: bool)
    ensures r <==> exists j :: 0 <= j < |ad.pads| && ad.pads[j].useCount > 0
  {
    PortRequiredFrom(ad.pads, 0)
  }

  /** Whether any adapter in the list still needs its port, walking the
      list as lintap.c:153-157 does. */
  function TimerRequired(adapters: seq<Adapter>): (r: bool)
    ensures r <==> exists i :: 0 <= i < |adapters| && PortRequired(adapters[i])
  {
    if |adapters| == 0 then false
    else if PortRequired(adapters[0]) then true
    else TimerRequired(adapters[1..])
  }

  /** The state change one effect stands for. */
  function ApplyEffect(d: Driver, e: Effect): Driver
  {
    match e
    case ClaimPort(a) => WithClaim(d, a, true)
    case ReleasePort(a) => WithClaim(d, a, false)
    case ArmTimer => d.(timerActive := true)
    case DisarmTimer => d.(timerActive := false)
  }

  /** The state after a sequence of effects, applied in order. */
  function ApplyEffects(d: Driver, es: seq<Effect>): Driver
    decreases |es|
  {
    if |es| == 0 then d else ApplyEffects(ApplyEffect(d, es[0]), es[1..])
  }

  lemma ApplyTwo(d: Driver, e1: Effect, e2: Effect)
    ensures ApplyEffects(d, [e1, e2]) == ApplyEffect(ApplyEffect(d, e1), e2)
  {
    var d1 := ApplyEffect(d, e1);
    assert [e1, e2][1..] == [e2];
    assert [e2][1..] == [];
    assert ApplyEffects(d, [e1, e2]) == ApplyEffects(d1, [e2]);
    assert ApplyEffects(d1, [e2]) == ApplyEffects(ApplyEffect(d1, e2), []);
  }

  /** Setting a pad's count to the value it has changes nothing. */
  lemma SameCountUnchanged(d: Driver, a: nat, p: nat)
    requires ValidPad(d, a, p)
    ensures WithUseCount(d, a, p, UseCount(d, a, p)) == d
  {
    var ad := d.adapters[a];
    assert ad.pads[p := ad.pads[p].(useCount := UseCount(d, a, p))] == ad.pads;
    assert d.adapters[a := ad] == d.adapters;
  }

  /** What opening a pad returns: the new state, 0 or -EBUSY, and the flag changes made. */
  datatype OpenResult = OpenResult(driver: Driver, status: int, effects: seq<Effect>)

  /** Opening pad `p` of adapter `a` (lintap.c:222-239, 201-211): the use
      count goes up; on its first open on an unclaimed adapter the port is
      claimed, and the timer armed unless it already is. A failed claim
      restores the count to zero, changes nothing else, and reports busy. */
  function Open(d: Driver, a: nat, p: nat, claimSucceeds: bool): (r: OpenResult)
    requires ValidPad(d, a, p)
    ensures ValidPad(r.driver, a, p) && SameShape(d, r.driver)
    ensures r.status == 0 || r.status == -EBUSY
    ensures r.status == -EBUSY <==>
      UseCount(d, a, p) == 0 && !d.adapters[a].portClaimed && !claimSucceeds
    ensures r.status == -EBUSY ==> r.driver == WithUseCount(d, a, p, 0) && r.effects == []
    ensures r.status == 0 ==> UseCount(r.driver, a, p) == UseCount(d, a, p) + 1
    ensures UseCount(d, a, p) == 0 && !d.adapters[a].portClaimed && claimSucceeds ==>
      r.driver.adapters[a].portClaimed && r.driver.timerActive
    ensures !(UseCount(d, a, p) == 0 && !d.adapters[a].portClaimed) ==>
      r.driver == WithUseCount(d, a, p, UseCount(d, a, p) + 1) && r.effects == []
    ensures r.driver == ApplyEffects(WithUseCount(d, a, p, UseCount(r.driver, a, p)), r.effects)
    ensures forall e :: e in r.effects ==> e == ClaimPort(a) || e == ArmTimer
    ensures ArmTimer in r.effects ==> !d.timerActive && r.effects == [ClaimPort(a), ArmTimer]
  {
    var count := UseCount(d, a, p) + 1;
    var incremented := WithUseCount(d, a, p, count);
    if count == 1 && !d.adapters[a].portClaimed then
      if claimSucceeds then
        var claimed := WithClaim(incremented, a, true);
        if !d.timerActive then
          ApplyTwo(incremented, ClaimPort(a), ArmTimer);
          OpenResult(claimed.(timerActive := true), 0, [ClaimPort(a), ArmTimer])
        else
          OpenResult(claimed, 0, [ClaimPort(a)])
      else
        OpenResult(WithUseCount(d, a, p, 0), -EBUSY, [])
    else
      OpenResult(incremented, 0, [])
  }

  /** What closing a pad returns: the new state and the flag changes made. */
  datatype CloseResult = CloseResult(driver: Driver, effects: seq<Effect>)

  /** Whether closing pad `p` of adapter `a` releases the port: the pad's
      count reaches zero, the adapter holds the port, and no other pad on it is open. */
  predicate Releases(d: Driver, a: nat, p: nat)
    requires ValidPad(d, a, p)
  {
    var closed := WithUseCount(d, a, p, UseCount(d, a, p) - 1);
    UseCount(closed, a, p) == 0 && closed.adapters[a].portClaimed && !PortRequired(closed.adapters[a])
  }

  /** Closing pad `p` of adapter `a` (lintap.c:244-255, 172-179, 214-219):
      the use count goes down; when that releases the port, the timer is
      first disarmed if it is armed and no adapter still needs it, and only
      then is the port released. Otherwise no flag changes. */
  function Close(d: Driver, a: nat, p: nat): (r: CloseResult)
    requires ValidPad(d, a, p)
    ensures ValidPad(r.driver, a, p) && SameShape(d, r.driver)
    ensures UseCount(r.driver, a, p) == UseCount(d, a, p) - 1
    ensures !Releases(d, a, p) ==> r.driver == WithUseCount(d, a, p, UseCount(d, a, p) - 1) && r.effects == []
    ensures Releases(d, a, p) ==> !r.driver.adapters[a].portClaimed
    ensures Releases(d, a, p) ==>
      (r.driver.timerActive <==> d.timerActive && TimerRequired(WithUseCount(d, a, p, UseCount(d, a, p) - 1).adapters))
    ensures Releases(d, a, p) ==> |r.effects| > 0 && r.effects[|r.effects| - 1] == ReleasePort(a)
    ensures DisarmTimer in r.effects ==> r.effects == [DisarmTimer, ReleasePort(a)]
    ensures DisarmTimer in r.effects ==>
      d.timerActive && !TimerRequired(WithUseCount(d, a, p, UseCount(d, a, p) - 1).adapters)
    ensures r.driver == ApplyEffects(WithUseCount(d, a, p, UseCount(d, a, p) - 1), r.effects)
    ensures forall e :: e in r.effects ==> e == DisarmTimer || e == ReleasePort(a)
  {
    var closed := WithUseCount(d, a, p, UseCount(d, a, p) - 1);
    if Releases(d, a, p) then
      if closed.timerActive && !TimerRequired(closed.adapters) then
        ApplyTwo(closed, DisarmTimer, ReleasePort(a));
        CloseResult(WithClaim(closed.(timerActive := false), a, false), [DisarmTimer, ReleasePort(a)])
      else
        CloseResult(WithClaim(closed, a, false), [ReleasePort(a)])
    else
      CloseResult(closed, [])
  }

  /* ---------------------------------------------------------------------
     Invariants
     --------------------------------------------------------------------- */

  /** An open pad's adapter holds its port. */
  predicate OpenPadsClaimed(d: Driver)
  {
    forall a, p :: 0 <= a < |d.adapters| && 0 <= p < |d.adapters[a].pads| ==>
      d.adapters[a].pads[p].useCount > 0 ==> d.adapters[a].portClaimed
  }

  /** An adapter holds its port only while some pad on it is open. */
  predicate ClaimsNeeded(d: Driver)
  {
    forall a :: 0 <= a < |d.adapters| ==> d.adapters[a].portClaimed ==> PortRequired(d.adapters[a])
  }

  /** The timer is armed exactly when some adapter has an open pad. */
  predicate TimerMatchesUse(d: Driver)
  {
    d.timerActive <==> TimerRequired(d.adapters)
  }

  /** The invariant the open and close paths keep. */
  predicate Valid(d: Driver)
  {
    OpenPadsClaimed(d) && ClaimsNeeded(d) && TimerMatchesUse(d)
  }

  /** An armed timer always has a claimed port to poll. */
  predicate ArmedOnlyWhenClaimed(d: Driver)
  {
    d.timerActive ==> exists a :: 0 <= a < |d.adapters| && d.adapters[a].portClaimed
  }

  lemma ValidArmedOnlyWhenClaimed(d: Driver)
    requires Valid(d)
    ensures ArmedOnlyWhenClaimed(d)
  {
    if d.timerActive {
      var a :| 0 <= a < |d.adapters| && PortRequired(d.adapters[a]);
      var p :| 0 <= p < |d.adapters[a].pads| && d.adapters[a].pads[p].useCount > 0;
    }
  }

  /** Whether an adapter needs its port depends only on which of its pads are open. */
  lemma PortRequiredFrame(x: Adapter, y: Adapter)
    requires |x.pads| == |y.pads|
    requires forall j :: 0 <= j < |x.pads| ==> (x.pads[j].useCount > 0) == (y.pads[j].useCount > 0)
    ensures PortRequired(x) == PortRequired(y)
  {
    if PortRequired(x) {
      var j :| 0 <= j < |x.pads| && x.pads[j].useCount > 0;
      assert y.pads[j].useCount > 0;
    }
    if PortRequired(y) {
      var j :| 0 <= j < |y.pads| && y.pads[j].useCount > 0;
      assert x.pads[j].useCount > 0;
    }
  }

  /** Whether the timer is needed depends only on which adapters need their ports. */
  lemma TimerRequiredFrame(xs: seq<Adapter>, ys: seq<Adapter>)
    requires |xs| == |ys|
    requires forall i :: 0 <= i < |xs| ==> PortRequired(xs[i]) == PortRequired(ys[i])
    ensures TimerRequired(xs) == TimerRequired(ys)
  {
    if TimerRequired(xs) {
      var i :| 0 <= i < |xs| && PortRequired(xs[i]);
      assert PortRequired(ys[i]);
    }
    if TimerRequired(ys) {
      var i :| 0 <= i < |ys| && PortRequired(ys[i]);
      assert PortRequired(xs[i]);
    }
  }

  /** Changing only adapter `a`, without changing whether it needs its
      port, leaves the timer's need unchanged. */
  lemma TimerRequiredFrameAt(xs: seq<Adapter>, ys: seq<Adapter>, a: nat)
    requires |xs| == |ys| && a < |xs|
    requires forall i :: 0 <= i < |xs| && i != a ==> xs[i] == ys[i]
    requires PortRequired(xs[a]) == PortRequired(ys[a])
    ensures TimerRequired(xs) == TimerRequired(ys)
  {
    TimerRequiredFrame(xs, ys);
  }

  /** Changing one pad's count to `n` changes nothing but that count, and
      leaves its adapter's need for the port as the count's sign decides. */
  lemma CountChangeFrame(d: Driver, a: nat, p: nat, n: int)
    requires ValidPad(d, a, p)
    ensures var r := WithUseCount(d, a, p, n);
      && |r.adapters| == |d.adapters|
      && r.timerActive == d.timerActive
      && (forall i :: 0 <= i < |d.adapters| && i != a ==> r.adapters[i] == d.adapters[i])
      && r.adapters[a].portClaimed == d.adapters[a].portClaimed
      && |r.adapters[a].pads| == |d.adapters[a].pads|
      && (forall j :: 0 <= j < |d.adapters[a].pads| && j != p ==> r.adapters[a].pads[j] == d.adapters[a].pads[j])
      && r.adapters[a].pads[p].useCount == n
      && (n > 0 ==> PortRequired(r.adapters[a]))
  {
  }

  /** Opening a pad without claiming keeps the invariant: its adapter
      already holds the port (or the count stays non-positive), so no
      adapter's need for the port changes. */
  lemma OpenWithoutClaimPreservesValid(d: Driver, a: nat, p: nat)
    requires ValidPad(d, a, p) && Valid(d)
    requires !(UseCount(d, a, p) == 0 && !d.adapters[a].portClaimed)
    ensures Valid(WithUseCount(d, a, p, UseCount(d, a, p) + 1))
  {
    var c := UseCount(d, a, p);
    var r := WithUseCount(d, a, p, c + 1);
    CountChangeFrame(d, a, p, c + 1);
    if c >= 0 {
      assert d.adapters[a].portClaimed;
      assert PortRequired(d.adapters[a]);
    } else {
      PortRequiredFrame(d.adapters[a], r.adapters[a]);
    }
    assert PortRequired(r.adapters[a]) == PortRequired(d.adapters[a]);
    TimerRequiredFrameAt(d.adapters, r.adapters, a);
  }

  /** Opening a pad with a successful claim keeps the invariant: the
      adapter now holds the port and has an open pad, and the timer is armed. */
  lemma OpenWithClaimPreservesValid(d: Driver, a: nat, p: nat)
    requires ValidPad(d, a, p) && Valid(d)
    requires UseCount(d, a, p) == 0 && !d.adapters[a].portClaimed
    ensures Valid(WithClaim(WithUseCount(d, a, p, 1), a, true).(timerActive := true))
  {
    var o := WithUseCount(d, a, p, 1);
    var r := WithClaim(o, a, true).(timerActive := true);
    CountChangeFrame(d, a, p, 1);
    assert r.adapters[a].pads == o.adapters[a].pads;
    assert PortRequired(r.adapters[a]);
    assert TimerRequired(r.adapters);
  }

  /** Opening a pad keeps the invariant, whether the claim succeeds or not. */
  lemma OpenPreservesValid(d: Driver, a: nat, p: nat, claimSucceeds: bool)
    requires ValidPad(d, a, p) && Valid(d)
    ensures Valid(Open(d, a, p, claimSucceeds).driver)
  {
    var c := UseCount(d, a, p);
    if !(c == 0 && !d.adapters[a].portClaimed) {
      OpenWithoutClaimPreservesValid(d, a, p);
    } else if claimSucceeds {
      OpenWithClaimPreservesValid(d, a, p);
      if !d.timerActive {
      } else {
        assert Open(d, a, p, claimSucceeds).driver == WithClaim(WithUseCount(d, a, p, 1), a, true).(timerActive := true);
      }
    } else {
      SameCountUnchanged(d, a, p);
    }
  }

  /** Closing a pad that does not release the port keeps the invariant: no
      adapter's need for the port changes. */
  lemma CloseWithoutReleasePreservesValid(d: Driver, a: nat, p: nat)
    requires ValidPad(d, a, p) && Valid(d)
    requires !Releases(d, a, p)
    ensures Valid(WithUseCount(d, a, p, UseCount(d, a, p) - 1))
  {
    var c := UseCount(d, a, p);
    var r := WithUseCount(d, a, p, c - 1);
    CountChangeFrame(d, a, p, c - 1);
    if c >= 1 {
      assert d.adapters[a].portClaimed;
      assert PortRequired(d.adapters[a]);
      if c == 1 {
        assert PortRequired(r.adapters[a]);
      }
    } else {
      PortRequiredFrame(d.adapters[a], r.adapters[a]);
    }
    assert PortRequired(r.adapters[a]) == PortRequired(d.adapters[a]);
    TimerRequiredFrameAt(d.adapters, r.adapters, a);
  }

  /** Closing the last open pad of an adapter keeps the invariant: the
      adapter gives up the port, and the timer stays armed exactly when
      another adapter still needs it. */
  lemma CloseWithReleasePreservesValid(d: Driver, a: nat, p: nat)
    requires ValidPad(d, a, p) && Valid(d)
    requires Releases(d, a, p)
    ensures Valid(Close(d, a, p).driver)
  {
    var closed := WithUseCount(d, a, p, UseCount(d, a, p) - 1);
    var r := Close(d, a, p).driver;
    CountChangeFrame(d, a, p, UseCount(d, a, p) - 1);
    assert PortRequired(d.adapters[a]);
    assert d.timerActive;
    assert r.adapters[a].pads == closed.adapters[a].pads;
    TimerRequiredFrameAt(closed.adapters, r.adapters, a);
  }

  /** Closing a pad keeps the invariant. */
  lemma ClosePreservesValid(d: Driver, a: nat, p: nat)
    requires ValidPad(d, a, p) && Valid(d)
    ensures Valid(Close(d, a, p).driver)
  {
    if Releases(d, a, p) {
      CloseWithReleasePreservesValid(d, a, p);
    } else {
      CloseWithoutReleasePreservesValid(d, a, p);
    }
  }

  /* ---------------------------------------------------------------------
     Ordering of disarming and releasing
     --------------------------------------------------------------------- */

  /** Every state passed through while applying `es` to `d`, in order. */
  predicate ArmedOnlyWhenClaimedThroughout(d: Driver, es: seq<Effect>)
  {
    forall k :: 0 <= k <= |es| ==> ArmedOnlyWhenClaimed(ApplyEffects(d, es[..k]))
  }

  /** Closing a pad never passes through a state in which the timer is
      armed but no adapter holds its port: the timer is disarmed before the
      last claimed port is released. */
  lemma CloseDisarmsBeforeRelease(d: Driver, a: nat, p: nat)
    requires ValidPad(d, a, p) && Valid(d)
    ensures ArmedOnlyWhenClaimedThroughout(WithUseCount(d, a, p, UseCount(d, a, p) - 1), Close(d, a, p).effects)
  {
    var closed := WithUseCount(d, a, p, UseCount(d, a, p) - 1);
    var es := Close(d, a, p).effects;
    CountChangeFrame(d, a, p, UseCount(d, a, p) - 1);
    if Releases(d, a, p) {
      assert closed.adapters[a].portClaimed;
      assert ArmedOnlyWhenClaimed(ApplyEffects(closed, es[..0])) by {
        assert es[..0] == [];
      }
      if es == [DisarmTimer, ReleasePort(a)] {
        assert es[..1] == [DisarmTimer];
        assert es[..2] == es;
        assert ApplyEffects(closed, [DisarmTimer]) == closed.(timerActive := false) by {
          assert [DisarmTimer][1..] == [];
        }
        ApplyTwo(closed, DisarmTimer, ReleasePort(a));
      } else {
        assert es == [ReleasePort(a)];
        assert es[..1] == es;
        var r := Close(d, a, p).driver;
        assert r.timerActive ==> TimerRequired(closed.adapters);
        if r.timerActive {
          var i :| 0 <= i < |closed.adapters| && PortRequired(closed.adapters[i]);
          assert i != a;
          var j :| 0 <= j < |closed.adapters[i].pads| && closed.adapters[i].pads[j].useCount > 0;
          assert d.adapters[i].pads[j].useCount > 0;
          assert r.adapters[i].portClaimed;
        }
      }
    } else {
      assert es == [];
      assert es[..0] == [];
      CloseWithoutReleasePreservesValid(d, a, p);
      ValidArmedOnlyWhenClaimed(closed);
    }
  }

  /** Opening a pad never passes through a state in which the timer is
      armed but no adapter holds its port: the port is claimed before the
      timer is armed, and the timer is armed only when it was not. */
  lemma OpenClaimsBeforeArm(d: Driver, a: nat, p: nat, claimSucceeds: bool)
    requires ValidPad(d, a, p) && Valid(d)
    ensures var r := Open(d, a, p, claimSucceeds);
      ArmedOnlyWhenClaimedThroughout(WithUseCount(d, a, p, UseCount(r.driver, a, p)), r.effects)
  {
    var r := Open(d, a, p, claimSucceeds);
    var start := WithUseCount(d, a, p, UseCount(r.driver, a, p));
    var es := r.effects;
    CountChangeFrame(d, a, p, UseCount(r.driver, a, p));
    OpenPreservesValid(d, a, p, claimSucceeds);
    ValidArmedOnlyWhenClaimed(d);
    ValidArmedOnlyWhenClaimed(r.driver);
    assert es[..0] == [];
    if es == [] {
      assert ApplyEffects(start, es[..0]) == r.driver;
    } else if es == [ClaimPort(a)] {
      assert es[..1] == es;
      assert ArmedOnlyWhenClaimed(start) by {
        if start.timerActive {
          var i :| 0 <= i < |d.adapters| && d.adapters[i].portClaimed;
          assert start.adapters[i].portClaimed;
        }
      }
    } else {
      assert es == [ClaimPort(a), ArmTimer];
      assert es[..1] == [ClaimPort(a)];
      assert es[..2] == es;
      assert ApplyEffects(start, [ClaimPort(a)]) == WithClaim(start, a, true) by {
        assert [ClaimPort(a)][1..] == [];
      }
    }
  }

  /** Why the order matters: with one adapter whose only open pad is being
      closed, releasing the port before disarming the timer would pass
      through a state in which the timer is armed and no port is held. */
  lemma ReleaseBeforeDisarmIsUnsafe()
    ensures var pad := Pad(PadReading(0, 0, 0, 0), 0);
      var closing := Driver([Adapter(true, [pad, pad, pad, pad])], true);
      && Close(Driver([Adapter(true, [pad.(useCount := 1), pad, pad, pad])], true), 0, 0).effects == [DisarmTimer, ReleasePort(0)]
      && !ArmedOnlyWhenClaimed(ApplyEffect(closing, ReleasePort(0)))
  {
    var pad := Pad(PadReading(0, 0, 0, 0), 0);
    var d := Driver([Adapter(true, [pad.(useCount := 1), pad, pad, pad])], true);
    var closed := WithUseCount(d, 0, 0, 0);
    assert [pad.(useCount := 1), pad, pad, pad][0 := pad] == [pad, pad, pad, pad];
    assert closed == Driver([Adapter(true, [pad, pad, pad, pad])], true);
    assert !PortRequired(closed.adapters[0]);
    assert !TimerRequired(closed.adapters);
  }

  /* ---------------------------------------------------------------------
     Sequences of opens and closes
     --------------------------------------------------------------------- */

  /** A request from the input layer: open or close one pad's device. */
  datatype Request = OpenPad(adapter: nat, pad: nat, claimSucceeds: bool) | ClosePad(adapter: nat, pad: nat)

  predicate RequestFits(d: Driver, q: Request)
  {
    ValidPad(d, q.adapter, q.pad)
  }

  function Step(d: Driver, q: Request): (r: Driver)
    requires RequestFits(d, q)
    ensures SameShape(d, r)
  {
    match q
    case OpenPad(a, p, ok) => Open(d, a, p, ok).driver
    case ClosePad(a, p) => Close(d, a, p).driver
  }

  lemma SameShapeFits(d: Driver, e: Driver, qs: seq<Request>)
    requires SameShape(d, e)
    requires forall i :: 0 <= i < |qs| ==> RequestFits(d, qs[i])
    ensures forall i :: 0 <= i < |qs| ==> RequestFits(e, qs[i])
  {
  }

  /** The state after serving requests in order. */
  function Run(d: Driver, qs: seq<Request>): (r: Driver)
    requires forall i :: 0 <= i < |qs| ==> RequestFits(d, qs[i])
    ensures SameShape(d, r)
    decreases |qs|
  {
    if |qs| == 0 then d
    else
      SameShapeFits(d, Step(d, qs[0]), qs[1..]);
      Run(Step(d, qs[0]), qs[1..])
  }

  /** A freshly attached set of adapters: every pad zeroed and closed, no
      port claimed, the timer disarmed. */
  function Initial(adapterCount: nat): (d: Driver)
    ensures |d.adapters| == adapterCount && WellFormed(d)
  {
    Driver(seq(adapterCount, _ => Adapter(false, seq(Slots, _ => Pad(PadReading(0, 0, 0, 0), 0)))), false)
  }

  /** The invariant holds after any sequence of opens and closes from the
      initial state, whatever the outcome of each claim. */
  lemma {:induction false} RunPreservesValid(d: Driver, qs: seq<Request>)
    requires Valid(d)
    requires forall i :: 0 <= i < |qs| ==> RequestFits(d, qs[i])
    ensures Valid(Run(d, qs))
    decreases |qs|
  {
    if |qs| > 0 {
      var next := Step(d, qs[0]);
      match qs[0] {
        case OpenPad(a, p, ok) => OpenPreservesValid(d, a, p, ok);
        case ClosePad(a, p) => ClosePreservesValid(d, a, p);
      }
      SameShapeFits(d, next, qs[1..]);
      RunPreservesValid(next, qs[1..]);
    }
  }

  lemma InitialValid(adapterCount: nat)
    ensures Valid(Initial(adapterCount))
  {
    var d := Initial(adapterCount);
    forall i | 0 <= i < |d.adapters|
      ensures !PortRequired(d.adapters[i])
    {
      assert forall j :: 0 <= j < |d.adapters[i].pads| ==> d.adapters[i].pads[j].useCount == 0;
    }
  }
}

=== FILE: padstate.dfy ===
/**
 * Translation of a pad's two button bytes into the values the timer
 * callback reports to the input layer (lintap.c:386-407): two axes and ten
 * keys. Every line is active low: a direction or button is held when its
 * bit reads 0, so the all-ones bytes stored for an absent pad read as an
 * idle controller.
 */
module PadState {

  import opened Bytes

  /** The pad's controls, as named by the button-status masks (lintap.c:74-77). */
  datatype PadButton =
    | Left | Down | Right | Up | Start | Select
    | Square | Cross | Circle | Triangle | Right1 | Left1 | Right2 | Left2

  /** Each control's bit in the 16-bit button word. */
  function Mask(b: PadButton): bv16
  {
    match b
    case Left => 0x0080
    case Down => 0x0040
    case Right => 0x0020
    case Up => 0x0010
    case Start => 0x0008
    case Select => 0x0001
    case Square => 0x8000
    case Cross => 0x4000
    case Circle => 0x2000
    case Triangle => 0x1000
    case Right1 => 0x0800
    case Left1 => 0x0400
    case Right2 => 0x0200
    case Left2 => 0x0100
  }

  /** Input-layer key codes the driver reports. */
  datatype KeyCode = BtnTL2 | BtnTR2 | BtnTL | BtnTR | BtnY | BtnX | BtnB | BtnA | BtnStart | BtnSelect

  /** Number of keys reported per pad. */
  const KeyCount: nat := 10

  /** The key code of each reported key, in report order (lintap.c:122). */
  const KeyEvents: seq<KeyCode> := [BtnTL2, BtnTR2, BtnTL, BtnTR, BtnY, BtnX, BtnB, BtnA, BtnStart, BtnSelect]

  /** The control behind each reported key, in report order. */
  const KeyButtons: seq<PadButton> := [Left2, Right2, Left1, Right1, Triangle, Circle, Cross, Square, Start, Select]

  /** Full deflection of an axis. */
  const AxisMax: int := 255

  /** The button word read from the two stored button bytes, least
      significant byte first. */
  function ButtonWord(low: bv8, high: bv8): (w: bv16)
    ensures forall i :: 0 <= i < 8 ==> (WordBit(w, i) <==> Bit(low, i))
    ensures forall i :: 0 <= i < 8 ==> (WordBit(w, i + 8) <==> Bit(high, i))
  {
    ((high as bv16) << 8) | (low as bv16)
  }

  /** Whether a control is held: its active-low bit reads 0. */
  predicate Held(w: bv16, b: PadButton)
  {
    w & Mask(b) == 0
  }

  /** One axis from a pair of opposite directions: +255 for the positive
      one alone, -255 for the negative one alone, and 0 for both or neither. */
  function Axis(w: bv16, positive: PadButton, negative: PadButton): (v: int)
    ensures v == 0 || v == AxisMax || v == -AxisMax
    ensures v == 0 <==> (Held(w, positive) <==> Held(w, negative))
    ensures v == AxisMax <==> Held(w, positive) && !Held(w, negative)
    ensures v == -AxisMax <==> Held(w, negative) && !Held(w, positive)
  {
    0 + (if w & Mask(positive) != 0 then 0 else AxisMax) - (if w & Mask(negative) != 0 then 0 else AxisMax)
  }

  /** The horizontal axis: right is positive. */
  function AxisX(w: bv16): int
  {
    Axis(w, Right, Left)
  }

  /** The vertical axis: down is positive. */
  function AxisY(w: bv16): int
  {
    Axis(w, Down, Up)
  }

  /** The mask the report loop uses for key `k`: the eight shoulder and
      face buttons by shifting 0x0100, then start and select. */
  function KeyMask(k: nat): bv16
    requires k < KeyCount
  {
    if k < 8 then 0x0100 << k else if k == 8 then Mask(Start) else Mask(Select)
  }

  /** Whether key `k` is reported pressed: its bit of the complemented word is set. */
  predicate KeyPressed(w: bv16, k: nat)
    requires k < KeyCount
  {
    !w & KeyMask(k) != 0
  }

  /** The shifted masks of the report loop are the masks of the controls
      whose key codes are reported in the same position. */
  lemma KeyMaskNamesButton(k: nat)
    requires k < KeyCount
    ensures KeyMask(k) == Mask(KeyButtons[k])
  {
    if k == 0 { assert KeyMask(k) == 0x0100; }
    else if k == 1 { assert KeyMask(k) == 0x0200; }
    else if k == 2 { assert KeyMask(k) == 0x0400; }
    else if k == 3 { assert KeyMask(k) == 0x0800; }
    else if k == 4 { assert KeyMask(k) == 0x1000; }
    else if k == 5 { assert KeyMask(k) == 0x2000; }
    else if k == 6 { assert KeyMask(k) == 0x4000; }
    else if k == 7 { assert KeyMask(k) == 0x8000; }
  }

  /** Key `k` is reported pressed exactly when its control is held. */
  lemma KeyPressedIffHeld(w: bv16, k: nat)
    requires k < KeyCount
    ensures KeyPressed(w, k) <==> Held(w, KeyButtons[k])
  {
    KeyMaskNamesButton(k);
    var m := Mask(KeyButtons[k]);
    assert m == 0x0001 || m == 0x0008 || m == 0x0100 || m == 0x0200 || m == 0x0400
      || m == 0x0800 || m == 0x1000 || m == 0x2000 || m == 0x4000 || m == 0x8000;
  }

  /** One reported key: its code and whether it is pressed. */
  datatype KeyReport = KeyReport(code: KeyCode, pressed: bool)

  /** Everything reported for one pad in one tick. */
  datatype PadReport = PadReport(x: int, y: int, keys: seq<KeyReport>)

  /** A control whose mask is bit `i < 8` of the word is bit `i` of the first button byte. */
  lemma HeldInLowByte(low: bv8, high: bv8, b: PadButton, i: nat)
    requires i < 8 && Mask(b) == (1 as bv16) << i
    ensures Held(ButtonWord(low, high), b) <==> !Bit(low, i)
  {
    assert WordBit(ButtonWord(low, high), i) <==> Bit(low, i);
  }

  /** Where the directions, start and select sit in the first button byte. */
  lemma LowByteControls(low: bv8, high: bv8)
    ensures Held(ButtonWord(low, high), Right) <==> !Bit(low, 5)
    ensures Held(ButtonWord(low, high), Left) <==> !Bit(low, 7)
    ensures Held(ButtonWord(low, high), Down) <==> !Bit(low, 6)
    ensures Held(ButtonWord(low, high), Up) <==> !Bit(low, 4)
    ensures Held(ButtonWord(low, high), Start) <==> !Bit(low, 3)
    ensures Held(ButtonWord(low, high), Select) <==> !Bit(low, 0)
  {
    HeldInLowByte(low, high, Right, 5);
    HeldInLowByte(low, high, Left, 7);
    HeldInLowByte(low, high, Down, 6);
    HeldInLowByte(low, high, Up, 4);
    HeldInLowByte(low, high, Start, 3);
    HeldInLowByte(low, high, Select, 0);
  }

  /** Key `k` of the report loop reads bit `k` of the second button byte. */
  lemma HighByteKey(low: bv8, high: bv8, k: nat)
    requires k < 8
    ensures KeyPressed(ButtonWord(low, high), k) <==> !Bit(high, k)
  {
    var w := ButtonWord(low, high);
    assert WordBit(w, k + 8) <==> Bit(high, k);
  }

  /** The report for a pad whose stored button bytes are `low` and `high`
      (lintap.c:386-405): both axes from the word's directions, then the
      ten keys in report order. */
  function Translate(low: bv8, high: bv8): PadReport
  {
    var w := ButtonWord(low, high);
    PadReport(AxisX(w), AxisY(w), seq(KeyCount, k requires 0 <= k < KeyCount => KeyReport(KeyEvents[k], KeyPressed(w, k))))
  }

  /** The report in terms of the stored bytes: the eight shoulder and face
      keys are the bits of the second byte, start, select and the four
      directions are bits of the first, all active low. */
  lemma TranslateReadsBytes(low: bv8, high: bv8)
    ensures var r := Translate(low, high);
      && (r.x == 0 || r.x == AxisMax || r.x == -AxisMax)
      && (r.y == 0 || r.y == AxisMax || r.y == -AxisMax)
      && (r.x == AxisMax <==> !Bit(low, 5) && Bit(low, 7))
      && (r.x == -AxisMax <==> !Bit(low, 7) && Bit(low, 5))
      && (r.y == AxisMax <==> !Bit(low, 6) && Bit(low, 4))
      && (r.y == -AxisMax <==> !Bit(low, 4) && Bit(low, 6))
      && (forall k :: 0 <= k < 8 ==> r.keys[k] == KeyReport(KeyEvents[k], !Bit(high, k)))
      && r.keys[8] == KeyReport(BtnStart, !Bit(low, 3))
      && r.keys[9] == KeyReport(BtnSelect, !Bit(low, 0))
  {
    var w := ButtonWord(low, high);
    LowByteControls(low, high);
    KeyPressedIffHeld(w, 8);
    KeyPressedIffHeld(w, 9);
    forall k | 0 <= k < 8
      ensures KeyPressed(w, k) <==> !Bit(high, k)
    {
      HighByteKey(low, high, k);
    }
  }

  /** Each reported key is pressed exactly when the control it stands for
      is held, and each axis follows its pair of directions. */
  lemma TranslateFollowsControls(low: bv8, high: bv8)
    ensures var w := ButtonWord(low, high);
      var r := Translate(low, high);
      && r.x == Axis(w, Right, Left) && r.y == Axis(w, Down, Up)
      && forall k :: 0 <= k < KeyCount ==> r.keys[k] == KeyReport(KeyEvents[k], Held(w, KeyButtons[k]))
  {
    var w := ButtonWord(low, high);
    forall k | 0 <= k < KeyCount
      ensures KeyPressed(w, k) <==> Held(w, KeyButtons[k])
    {
      KeyPressedIffHeld(w, k);
    }
  }

  /** An absent pad, whose buttons are forced to all ones, reports both axes
      centred and no key pressed. */
  lemma AbsentPadIsIdle()
    ensures Translate(0xFF, 0xFF).x == 0 && Translate(0xFF, 0xFF).y == 0
    ensures forall k :: 0 <= k < KeyCount ==> !Translate(0xFF, 0xFF).keys[k].pressed
  {
    TranslateReadsBytes(0xFF, 0xFF);
  }
}

=== FILE: protocol.dfy ===
/**
 * The bit-banged pad protocol (lintap.c:181-197, 257-325).
 *
 * The parallel port is modelled as two streams. What the driver writes to
 * the data register, together with the settle and turnaround delays it
 * observes and the points at which it samples the status register, is an
 * output trace of `BusOp`s. What the status register shows is an input
 * `StatusStream`: `input(n)` is the byte returned by the n-th read of the
 * status register within one poll. With the port split this way, the whole
 * engine is a pure function of its input.
 */
module Protocol {

  import opened Bytes

  /** Data-register lines driven by the driver. */
  const CommandLine: bv8 := 0x01
  const SelectAll: bv8 := 0x02
  const ClockLine: bv8 := 0x04

  /** The status-register line that carries each slot's response bit. */
  const DataMasks: seq<bv8> := [0x08, 0x10, 0x20, 0x40]

  /** Number of pad slots on one adapter. */
  const Slots: nat := 4

  const AttentionCommand: bv8 := 0x01
  const TransferCommand: bv8 := 0x42
  const NormalPadId: bv8 := 0x41
  const NormalStatus: bv8 := 0x5A
  /** Button bytes of a slot that did not answer as a normal pad: every button released. */
  const NoButtons: bv8 := 0xFF

  /** One step of the driver on the bus: a data-register write, a
      status-register read, the per-bit settle delay (`bit_delay`) or the
      per-command turnaround delay (`cmd_delay`). */
  datatype BusOp = Write(data: bv8) | Read | Settle | Turnaround

  /** The status register, indexed by the ordinal of the read within a poll. */
  type StatusStream = nat -> bv8

  /** The data bytes written by a trace, in order. */
  function Writes(ops: seq<BusOp>): seq<bv8>
  {
    if |ops| == 0 then []
    else (if ops[0].Write? then [ops[0].data] else []) + Writes(ops[1..])
  }

  /** The number of status-register reads in a trace. */
  function ReadCount(ops: seq<BusOp>): nat
  {
    if |ops| == 0 then 0
    else (if ops[0].Read? then 1 else 0) + ReadCount(ops[1..])
  }

  /** The value left on the data register after a trace, starting from `lines`. */
  function DataLines(lines: bv8, ops: seq<BusOp>): bv8
    decreases |ops|
  {
    if |ops| == 0 then lines
    else DataLines(if ops[0].Write? then ops[0].data else lines, ops[1..])
  }

  /** Selecting all slots: select and clock high, then select low with the clock kept high. */
  const SelectOps: seq<BusOp> := [Write(ClockLine | SelectAll), Settle, Write(ClockLine), Settle]

  /** Deselecting all slots: select and clock high, with no delay afterwards. */
  const DeselectOps: seq<BusOp> := [Write(ClockLine | SelectAll)]

  /** The command-line level for bit `i` of `command`, clock low. */
  function CommandBit(command: bv8, i: nat): bv8
    requires i < 8
  {
    if Bit(command, i) then CommandLine else 0
  }

  /** Clock cycle `i` of sending `command`: the bit with the clock low, a
      settle delay, one sample of the status register, the same bit with the
      clock high, and another settle delay. */
  function CycleOps(command: bv8, i: nat): seq<BusOp>
    requires i < 8
  {
    [Write(CommandBit(command, i)), Settle, Read, Write(CommandBit(command, i) | ClockLine), Settle]
  }

  /** The first `n` clock cycles of sending `command`. */
  function CyclesUpTo(command: bv8, n: nat): seq<BusOp>
    requires n <= 8
  {
    if n == 0 then [] else CyclesUpTo(command, n - 1) + CycleOps(command, n - 1)
  }

  /** The whole trace of sending one command byte. */
  function CommandOps(command: bv8): seq<BusOp>
  {
    CyclesUpTo(command, 8) + [Turnaround]
  }

  /** One slot's accumulator after cycle `i`: bit `i` is set when the slot's
      data line is high in that cycle's sample. */
  function ShiftIn(acc: bv8, sample: bv8, slot: nat, i: nat): bv8
    requires slot < Slots && i < 8
  {
    acc | (if sample & DataMasks[slot] != 0 then 1 << i else 0)
  }

  /** The byte a slot has shifted in after the first `n` cycles of a command
      whose first sample is `input(start)`: bit i is the slot's data line in
      the i-th sample. */
  function CapturedUpTo(input: StatusStream, start: nat, slot: nat, n: nat): bv8
    requires slot < Slots && n <= 8
  {
    if n == 0 then 0
    else ShiftIn(CapturedUpTo(input, start, slot, n - 1), input(start + n - 1), slot, n - 1)
  }

  /** The byte a slot answers to one command whose first sample is `input(start)`. */
  function Captured(input: StatusStream, start: nat, slot: nat): bv8
    requires slot < Slots
  {
    CapturedUpTo(input, start, slot, 8)
  }

  /** Shifting the command right once per cycle puts bit `k` on the command line in cycle `k`. */
  lemma ShiftStep(command: bv8, cmd: bv8, k: nat)
    requires k < 8 && cmd == command >> k
    ensures cmd & CommandLine == CommandBit(command, k)
    ensures cmd >> 1 == command >> (k + 1)
  {
  }

  /** Latches one status sample into every slot's accumulator, as the inner
      loop of lintap.c:275-277 does. */
  method LatchSample(store: seq<bv8>, data: bv8, i: nat) returns (store': seq<bv8>)
    requires |store| == Slots && i < 8
    ensures |store'| == Slots
    ensures forall slot :: 0 <= slot < Slots ==> store'[slot] == ShiftIn(store[slot], data, slot, i)
  {
    store' := store;
    var slot := 0;
    while slot < Slots
      invariant slot <= Slots
      invariant |store'| == Slots
      invariant forall s :: 0 <= s < slot ==> store'[s] == ShiftIn(store[s], data, s, i)
      invariant forall s :: slot <= s < Slots ==> store'[s] == store[s]
    {
      store' := store'[slot := ShiftIn(store'[slot], data, slot, i)];
      slot := slot + 1;
    }
  }

  /** Sends one command byte least significant bit first and returns the
      byte each slot shifted back, as lintap.c:257-287 does: the command is
      shifted right once per cycle, and each slot's accumulator starts at
      zero and gains bit `i` when that slot's data line is high in sample `i`. */
  method SendCommand(command: bv8, input: StatusStream, start: nat) returns (ops: seq<BusOp>, store: seq<bv8>)
    ensures ops == CommandOps(command)
    ensures |store| == Slots
    ensures forall slot :: 0 <= slot < Slots ==> store[slot] == Captured(input, start, slot)
  {
    store := [0, 0, 0, 0];
    ops := [];
    var cmd := command;
    var bitCount: nat := 0;
    while bitCount < 8
      invariant bitCount <= 8
      invariant cmd == command >> bitCount
      invariant ops == CyclesUpTo(command, bitCount)
      invariant |store| == Slots
      invariant forall slot :: 0 <= slot < Slots ==> store[slot] == CapturedUpTo(input, start, slot, bitCount)
    {
      var commbyte := cmd & CommandLine;
      ShiftStep(command, cmd, bitCount);
      var cycle := [Write(commbyte), Settle];
      var data := input(start + bitCount);
      cycle := cycle + [Read];
      store := LatchSample(store, data, bitCount);
      commbyte := commbyte | ClockLine;
      cycle := cycle + [Write(commbyte), Settle];
      assert cycle == CycleOps(command, bitCount);
      ops := ops + cycle;
      cmd := cmd >> 1;
      bitCount := bitCount + 1;
    }
    ops := ops + [Turnaround];
  }

  /** What one slot reports after a poll: the id and status bytes it
      answered, and the two button bytes (`button_status[0]` and `[1]`). */
  datatype PadReading = PadReading(id: bv8, status: bv8, low: bv8, high: bv8)

  /** Whether an id/status pair is the answer of a normal pad. */
  predicate IsNormalPad(id: bv8, status: bv8)
  {
    id == NormalPadId && status == NormalStatus
  }

  /** The whole bus trace of one poll: select, the attention command, the
      transfer request, three zero bytes that clock out the status and the
      two button bytes, and deselect. */
  const PollOps: seq<BusOp> :=
    SelectOps + CommandOps(AttentionCommand) + CommandOps(TransferCommand)
    + CommandOps(0) + CommandOps(0) + CommandOps(0) + DeselectOps

  /** First sample of the `k`-th command of a poll: each command reads the status register eight times. */
  function CommandStart(k: nat): nat
  {
    8 * k
  }

  /** What a slot stores from the four bytes captured for it: id and
      status always, the button bytes only from a normal pad, all ones
      otherwise. */
  function Accept(id: bv8, status: bv8, low: bv8, high: bv8): PadReading
  {
    if IsNormalPad(id, status) then PadReading(id, status, low, high)
    else PadReading(id, status, NoButtons, NoButtons)
  }

  /** The reading a slot stores after a poll whose status register reads `input`. */
  function SlotReading(input: StatusStream, slot: nat): PadReading
    requires slot < Slots
  {
    Accept(Captured(input, CommandStart(1), slot), Captured(input, CommandStart(2), slot),
           Captured(input, CommandStart(3), slot), Captured(input, CommandStart(4), slot))
  }

  /** The loop of lintap.c:306-322 over the captured bytes of every slot. */
  method AcceptAll(id: seq<bv8>, status: seq<bv8>, low: seq<bv8>, high: seq<bv8>) returns (readings: seq<PadReading>)
    requires |id| == Slots && |status| == Slots && |low| == Slots && |high| == Slots
    ensures |readings| == Slots
    ensures forall s :: 0 <= s < Slots ==> readings[s] == Accept(id[s], status[s], low[s], high[s])
  {
    readings := [];
    var slot := 0;
    while slot < Slots
      invariant slot <= Slots
      invariant |readings| == slot
      invariant forall s :: 0 <= s < slot ==> readings[s] == Accept(id[s], status[s], low[s], high[s])
    {
      var reading := PadReading(id[slot], status[slot], 0, 0);
      if IsNormalPad(reading.id, reading.status) {
        reading := reading.(low := low[slot], high := high[slot]);
      } else {
        reading := reading.(low := NoButtons, high := NoButtons);
      }
      readings := readings + [reading];
      slot := slot + 1;
    }
  }

  /** Polls all four slots, as lintap.c:291-325 does: select, send the five
      poll commands (the answer to the attention command is discarded),
      store id and status for every slot, accept the button bytes only from
      a slot answering as a normal pad, and deselect. */
  method ReadStatus(input: StatusStream) returns (ops: seq<BusOp>, readings: seq<PadReading>)
    ensures ops == PollOps
    ensures |readings| == Slots
    ensures forall slot :: 0 <= slot < Slots ==> readings[slot] == SlotReading(input, slot)
  {
    ops := SelectOps;
    var o, temp := SendCommand(AttentionCommand, input, CommandStart(0));
    ops := ops + o;
    var id;
    o, id := SendCommand(TransferCommand, input, CommandStart(1));
    ops := ops + o;
    var status;
    o, status := SendCommand(0, input, CommandStart(2));
    ops := ops + o;
    var buttons1;
    o, buttons1 := SendCommand(0, input, CommandStart(3));
    ops := ops + o;
    var buttons2;
    o, buttons2 := SendCommand(0, input, CommandStart(4));
    ops := ops + o + DeselectOps;
    readings := AcceptAll(id, status, buttons1, buttons2);
  }

  /* ---------------------------------------------------------------------
     Properties of the engine
     --------------------------------------------------------------------- */

  lemma WritesAppend(a: seq<BusOp>, b: seq<BusOp>)
    ensures Writes(a + b) == Writes(a) + Writes(b)
    ensures ReadCount(a + b) == ReadCount(a) + ReadCount(b)
  {
    if |a| > 0 {
      assert (a + b)[0] == a[0];
      assert (a + b)[1..] == a[1..] + b;
      WritesAppend(a[1..], b);
    } else {
      assert a + b == b;
    }
  }

  /** One clock cycle writes the bit twice and samples once, between the
      clock-low write and the clock-high write. */
  lemma CycleTrace(command: bv8, i: nat)
    requires i < 8
    ensures Writes(CycleOps(command, i)) == [CommandBit(command, i), CommandBit(command, i) | ClockLine]
    ensures ReadCount(CycleOps(command, i)) == 1
    ensures forall k :: 0 <= k < |CycleOps(command, i)| && CycleOps(command, i)[k] == Read ==>
      && Writes(CycleOps(command, i)[..k]) == [CommandBit(command, i)]
      && Writes(CycleOps(command, i)[k + 1..]) == [CommandBit(command, i) | ClockLine]
  {
    var c := CycleOps(command, i);
    var head := c[..2];
    assert head[1..][1..] == [];
    assert Writes(head[1..][1..]) == [];
    assert head[1..][0] == Settle;
    assert Writes(head[1..]) == [];
    assert head[0] == Write(CommandBit(command, i));
    assert Writes(head) == [CommandBit(command, i)];
    assert c[4..][1..] == [];
    assert Writes(c[4..]) == [] && ReadCount(c[4..]) == 0;
    assert c[3..][1..] == c[4..];
    assert Writes(c[3..]) == [c[3].data] && ReadCount(c[3..]) == 0;
    assert c[2..][1..] == c[3..];
    assert Writes(c[2..]) == [c[3].data] && ReadCount(c[2..]) == 1;
    assert c[1..][1..] == c[2..];
    assert Writes(c[1..]) == [c[3].data] && ReadCount(c[1..]) == 1;
    forall k | 0 <= k < |c| && c[k] == Read
      ensures Writes(c[..k]) == [CommandBit(command, i)] && Writes(c[k + 1..]) == [CommandBit(command, i) | ClockLine]
    {
      assert k == 2;
    }
  }

  lemma {:induction false} CyclesWrites(command: bv8, n: nat)
    requires n <= 8
    ensures |Writes(CyclesUpTo(command, n))| == 2 * n
    ensures forall i :: 0 <= i < n ==>
      && Writes(CyclesUpTo(command, n))[2 * i] == CommandBit(command, i)
      && Writes(CyclesUpTo(command, n))[2 * i + 1] == CommandBit(command, i) | ClockLine
    ensures ReadCount(CyclesUpTo(command, n)) == n
  {
    if n > 0 {
      CyclesWrites(command, n - 1);
      WritesAppend(CyclesUpTo(command, n - 1), CycleOps(command, n - 1));
      CycleTrace(command, n - 1);
    }
  }

  /** Sending a command performs exactly sixteen data writes: in cycle `i`,
      least significant bit first, bit `i` of the command with the clock low
      and then the same bit with the clock high. It samples the status
      register exactly eight times. */
  lemma CommandTrace(command: bv8)
    ensures |Writes(CommandOps(command))| == 16
    ensures forall i :: 0 <= i < 8 ==>
      && Writes(CommandOps(command))[2 * i] == CommandBit(command, i)
      && Writes(CommandOps(command))[2 * i + 1] == CommandBit(command, i) | ClockLine
    ensures ReadCount(CommandOps(command)) == 8
  {
    var cycles := CyclesUpTo(command, 8);
    CyclesWrites(command, 8);
    WritesAppend(cycles, [Turnaround]);
    assert [Turnaround][1..] == [];
    assert Writes(CommandOps(command)) == Writes(cycles) + [] == Writes(cycles);
  }

  /** Latching a sample in cycle `j` sets at most bit `j`. */
  lemma ShiftInBit(acc: bv8, sample: bv8, slot: nat, j: nat, i: nat)
    requires slot < Slots && j < 8 && i < 8
    ensures Bit(ShiftIn(acc, sample, slot, j), i) <==> Bit(acc, i) || (i == j && sample & DataMasks[slot] != 0)
  {
  }

  /** Bit `i` of what a slot has shifted in after `n` cycles is set exactly
      when `i < n` and the slot's data line was high in sample `i`. */
  lemma {:induction false} CapturedUpToBits(input: StatusStream, start: nat, slot: nat, n: nat, i: nat)
    requires slot < Slots && n <= 8 && i < 8
    ensures Bit(CapturedUpTo(input, start, slot, n), i) <==> i < n && input(start + i) & DataMasks[slot] != 0
  {
    if n > 0 {
      CapturedUpToBits(input, start, slot, n - 1, i);
      ShiftInBit(CapturedUpTo(input, start, slot, n - 1), input(start + (n - 1)), slot, n - 1, i);
    }
  }

  /** The byte captured for a slot holds, in bit `i`, the slot's data line
      in the `i`-th sample: the response is read least significant bit first. */
  lemma CapturedBits(input: StatusStream, start: nat, slot: nat)
    requires slot < Slots
    ensures forall i :: 0 <= i < 8 ==> (Bit(Captured(input, start, slot), i) <==> input(start + i) & DataMasks[slot] != 0)
  {
    forall i | 0 <= i < 8
      ensures Bit(Captured(input, start, slot), i) <==> input(start + i) & DataMasks[slot] != 0
    {
      CapturedUpToBits(input, start, slot, 8, i);
    }
  }

  /** The writes and samples of select, five commands and deselect. */
  lemma FiveCommandTrace(c0: seq<BusOp>, c1: seq<BusOp>, c2: seq<BusOp>, c3: seq<BusOp>, c4: seq<BusOp>)
    requires ReadCount(c0) == 8 && ReadCount(c1) == 8 && ReadCount(c2) == 8 && ReadCount(c3) == 8 && ReadCount(c4) == 8
    ensures Writes(SelectOps + c0 + c1 + c2 + c3 + c4 + DeselectOps) ==
      [ClockLine | SelectAll, ClockLine] + Writes(c0) + Writes(c1) + Writes(c2) + Writes(c3) + Writes(c4)
      + [ClockLine | SelectAll]
    ensures ReadCount(SelectOps) == 0
    ensures ReadCount(SelectOps + c0) == 8
    ensures ReadCount(SelectOps + c0 + c1) == 16
    ensures ReadCount(SelectOps + c0 + c1 + c2) == 24
    ensures ReadCount(SelectOps + c0 + c1 + c2 + c3) == 32
    ensures ReadCount(SelectOps + c0 + c1 + c2 + c3 + c4 + DeselectOps) == 40
  {
    var s1 := SelectOps + c0;
    var s2 := s1 + c1;
    var s3 := s2 + c2;
    var s4 := s3 + c3;
    var s5 := s4 + c4;
    assert Writes(SelectOps) == [ClockLine | SelectAll, ClockLine] && ReadCount(SelectOps) == 0 by {
      var s := SelectOps;
      assert s[3..][1..] == [];
      assert Writes(s[3..]) == [] && ReadCount(s[3..]) == 0;
      assert s[2..][1..] == s[3..];
      assert Writes(s[2..]) == [ClockLine] && ReadCount(s[2..]) == 0;
      assert s[1..][1..] == s[2..];
      assert Writes(s[1..]) == [ClockLine] && ReadCount(s[1..]) == 0;
    }
    assert Writes(DeselectOps) == [ClockLine | SelectAll] && ReadCount(DeselectOps) == 0 by {
      assert DeselectOps[1..] == [];
    }
    WritesAppend(SelectOps, c0);
    WritesAppend(s1, c1);
    WritesAppend(s2, c2);
    WritesAppend(s3, c3);
    WritesAppend(s4, c4);
    WritesAppend(s5, DeselectOps);
  }

  /** A poll writes the select sequence (select and clock high, then select
      low), the writes of each of the five poll commands in order, and a
      single deselect write; it samples the status register forty times, so
      the `k`-th command's first sample is `input(CommandStart(k))`. */
  lemma PollTrace()
    ensures Writes(PollOps) ==
      [ClockLine | SelectAll, ClockLine]
      + Writes(CommandOps(AttentionCommand)) + Writes(CommandOps(TransferCommand))
      + Writes(CommandOps(0)) + Writes(CommandOps(0)) + Writes(CommandOps(0))
      + [ClockLine | SelectAll]
    ensures ReadCount(SelectOps) == CommandStart(0)
    ensures ReadCount(SelectOps + CommandOps(AttentionCommand)) == CommandStart(1)
    ensures ReadCount(SelectOps + CommandOps(AttentionCommand) + CommandOps(TransferCommand)) == CommandStart(2)
    ensures ReadCount(SelectOps + CommandOps(AttentionCommand) + CommandOps(TransferCommand) + CommandOps(0)) == CommandStart(3)
    ensures ReadCount(SelectOps + CommandOps(AttentionCommand) + CommandOps(TransferCommand) + CommandOps(0) + CommandOps(0)) == CommandStart(4)
    ensures ReadCount(PollOps) == CommandStart(5)
  {
    CommandTrace(AttentionCommand);
    CommandTrace(TransferCommand);
    CommandTrace(0);
    FiveCommandTrace(CommandOps(AttentionCommand), CommandOps(TransferCommand), CommandOps(0), CommandOps(0), CommandOps(0));
  }

  lemma DataLinesAppend(lines: bv8, a: seq<BusOp>, b: seq<BusOp>)
    ensures DataLines(lines, a + b) == DataLines(DataLines(lines, a), b)
    decreases |a|
  {
    if |a| > 0 {
      assert (a + b)[0] == a[0];
      assert (a + b)[1..] == a[1..] + b;
      DataLinesAppend(if a[0].Write? then a[0].data else lines, a[1..], b);
    } else {
      assert a + b == b;
    }
  }

  /** Whatever the data register held, a poll leaves every slot deselected
      with the clock high. */
  lemma PollEndsDeselected(lines: bv8)
    ensures DataLines(lines, PollOps) == ClockLine | SelectAll
  {
    var body := SelectOps + CommandOps(AttentionCommand) + CommandOps(TransferCommand)
      + CommandOps(0) + CommandOps(0) + CommandOps(0);
    DataLinesAppend(lines, body, DeselectOps);
    assert DeselectOps[1..] == [];
  }

  /** Deselecting is idempotent across a select: deselect, select, deselect
      leaves the data register as a single deselect does. */
  lemma DeselectIdempotent(lines: bv8)
    ensures DataLines(lines, DeselectOps + SelectOps + DeselectOps) == DataLines(lines, DeselectOps)
  {
    DataLinesAppend(lines, DeselectOps + SelectOps, DeselectOps);
    assert DeselectOps[1..] == [];
  }

  /* ---------------------------------------------------------------------
     Round trip: the status stream produced by pads answering given bytes
     --------------------------------------------------------------------- */

  /** Whether a slot holds its data line high in sample `n`, when it answers
      the `k`-th poll command with `answers[k]`, least significant bit first. */
  function AnswerLine(answers: seq<bv8>, n: nat): bool
    requires |answers| == 5
  {
    n < 40 && Bit(answers[n / 8], n % 8)
  }

  /** The status register seen when slot `s` answers the poll with
      `answers[s]`; after the last command every line reads low. */
  function Responding(answers: seq<seq<bv8>>): StatusStream
    requires |answers| == Slots && forall s :: 0 <= s < Slots ==> |answers[s]| == 5
  {
    (n: nat) =>
      (if AnswerLine(answers[0], n) then DataMasks[0] else 0)
      | (if AnswerLine(answers[1], n) then DataMasks[1] else 0)
      | (if AnswerLine(answers[2], n) then DataMasks[2] else 0)
      | (if AnswerLine(answers[3], n) then DataMasks[3] else 0)
  }

  /** A slot's data line in the stream is exactly the line that slot drives. */
  lemma RespondingLine(answers: seq<seq<bv8>>, slot: nat, n: nat)
    requires |answers| == Slots && forall s :: 0 <= s < Slots ==> |answers[s]| == 5
    requires slot < Slots
    ensures Responding(answers)(n) & DataMasks[slot] != 0 <==> AnswerLine(answers[slot], n)
  {
  }

  lemma CapturedAnswerBit(answers: seq<seq<bv8>>, slot: nat, k: nat, i: nat)
    requires |answers| == Slots && forall s :: 0 <= s < Slots ==> |answers[s]| == 5
    requires slot < Slots && k < 5 && i < 8
    ensures Bit(Captured(Responding(answers), CommandStart(k), slot), i) <==> Bit(answers[slot][k], i)
  {
    var n := CommandStart(k) + i;
    CapturedUpToBits(Responding(answers), CommandStart(k), slot, 8, i);
    RespondingLine(answers, slot, n);
    assert n / 8 == k && n % 8 == i;
  }

  /** Each poll command captures exactly the byte each slot answered to it. */
  lemma CapturedAnswer(answers: seq<seq<bv8>>, slot: nat, k: nat)
    requires |answers| == Slots && forall s :: 0 <= s < Slots ==> |answers[s]| == 5
    requires slot < Slots && k < 5
    ensures Captured(Responding(answers), CommandStart(k), slot) == answers[slot][k]
  {
    forall i | 0 <= i < 8
      ensures Bit(Captured(Responding(answers), CommandStart(k), slot), i) <==> Bit(answers[slot][k], i)
    {
      CapturedAnswerBit(answers, slot, k, i);
    }
    BitsDetermineByte(Captured(Responding(answers), CommandStart(k), slot), answers[slot][k]);
  }

  /** Round trip of a poll: a slot answering as a normal pad has its two
      button bytes stored as sent; any other slot has its id and status
      stored and its buttons forced to all ones. */
  lemma PollRoundTrip(answers: seq<seq<bv8>>, slot: nat)
    requires |answers| == Slots && forall s :: 0 <= s < Slots ==> |answers[s]| == 5
    requires slot < Slots
    ensures SlotReading(Responding(answers), slot) ==
      if IsNormalPad(answers[slot][1], answers[slot][2])
      then PadReading(answers[slot][1], answers[slot][2], answers[slot][3], answers[slot][4])
      else PadReading(answers[slot][1], answers[slot][2], NoButtons, NoButtons)
  {
    CapturedAnswer(answers, slot, 1);
    CapturedAnswer(answers, slot, 2);
    CapturedAnswer(answers, slot, 3);
    CapturedAnswer(answers, slot, 4);
  }

  /** A slot whose data line stays high throughout (nothing plugged in)
      reads as id 0xFF, status 0xFF and no buttons pressed. */
  lemma FloatingSlotReadsIdle(input: StatusStream, slot: nat)
    requires slot < Slots
    requires forall n :: input(n) & DataMasks[slot] != 0
    ensures SlotReading(input, slot) == PadReading(0xFF, 0xFF, NoButtons, NoButtons)
  {
    CapturedBits(input, CommandStart(1), slot);
    CapturedBits(input, CommandStart(2), slot);
    BitsDetermineByte(Captured(input, CommandStart(1), slot), 0xFF);
    BitsDetermineByte(Captured(input, CommandStart(2), slot), 0xFF);
  }
}

=== FILE: scheduler.dfy ===
/**
 * The polling timer's callback (lintap.c:374-416): every adapter holding
 * its port is polled once, each of its four pad slots takes the reading of
 * that poll, and the stored button bytes are translated into a report for
 * the slot's input device. Adapters without their port are skipped. The
 * callback re-arms the timer when it is done.
 *
 * The status register of each adapter during the tick is a parameter, one
 * stream per adapter, since what the pads answer is outside the driver.
 */
module Scheduler {

  import opened Protocol
  import opened PadState
  import opened Lifecycle

  /** What one adapter's part of a tick produced: the bus operations it
      made and the reports for its pads, in slot order. */
  datatype AdapterTick = AdapterTick(adapter: Adapter, ops: seq<BusOp>, reports: seq<PadReport>)

  /** The report sent for a stored reading: only the button bytes matter. */
  function ReportFor(reading: PadReading): PadReport
  {
    Translate(reading.low, reading.high)
  }

  /** What a tick does to one adapter whose status register reads `input`:
      a claimed adapter is polled once, every slot keeps its use count and
      takes the reading of the poll, and one report per slot is made from
      the new readings; an unclaimed adapter is left alone. */
  predicate Polled(before: Adapter, input: StatusStream, t: AdapterTick)
    requires |before.pads| == Slots
  {
    if before.portClaimed then
      && t.ops == PollOps
      && t.adapter.portClaimed
      && |t.adapter.pads| == Slots && |t.reports| == Slots
      && (forall s :: 0 <= s < Slots ==>
            t.adapter.pads[s] == Pad(SlotReading(input, s), before.pads[s].useCount))
      && (forall s :: 0 <= s < Slots ==> t.reports[s] == ReportFor(SlotReading(input, s)))
    else
      t == AdapterTick(before, [], [])
  }

  /** The inner loop of the callback: each slot takes its new reading,
      keeping its use count, and a report is made from that reading. */
  method StoreReadings(pads: seq<Pad>, readings: seq<PadReading>) returns (stored: seq<Pad>, reports: seq<PadReport>)
    requires |pads| == Slots && |readings| == Slots
    ensures |stored| == Slots && |reports| == Slots
    ensures forall s :: 0 <= s < Slots ==> stored[s] == Pad(readings[s], pads[s].useCount)
    ensures forall s :: 0 <= s < Slots ==> reports[s] == ReportFor(readings[s])
  {
    stored := [];
    reports := [];
    var s := 0;
    while s < Slots
      invariant 0 <= s <= Slots
      invariant |stored| == s && |reports| == s
      invariant forall j :: 0 <= j < s ==> stored[j] == Pad(readings[j], pads[j].useCount)
      invariant forall j :: 0 <= j < s ==> reports[j] == ReportFor(readings[j])
    {
      var pad := pads[s].(reading := readings[s]);
      stored := stored + [pad];
      reports := reports + [ReportFor(pad.reading)];
      s := s + 1;
    }
  }

  /** One adapter's part of the tick. */
  method PollAdapter(ad: Adapter, input: StatusStream) returns (t: AdapterTick)
    requires |ad.pads| == Slots
    ensures Polled(ad, input, t)
  {
    if !ad.portClaimed {
      return AdapterTick(ad, [], []);
    }
    var ops, readings := ReadStatus(input);
    var stored, reports := StoreReadings(ad.pads, readings);
    t := AdapterTick(ad.(pads := stored), ops, reports);
  }

  /** The timer callback: each adapter in list order, then re-arming. */
  method Tick(d: Driver, inputs: seq<StatusStream>) returns (next: Driver, ticks: seq<AdapterTick>)
    requires WellFormed(d) && |inputs| == |d.adapters|
    ensures next.timerActive
    ensures |next.adapters| == |d.adapters| && |ticks| == |d.adapters|
    ensures forall a :: 0 <= a < |d.adapters| ==>
      Polled(d.adapters[a], inputs[a], ticks[a]) && next.adapters[a] == ticks[a].adapter
    ensures WellFormed(next)
    ensures SameUse(d.(timerActive := true), next)
    ensures Valid(d) && d.timerActive ==> Valid(next)
  {
    ticks := [];
    var adapters: seq<Adapter> := [];
    var a := 0;
    while a < |d.adapters|
      invariant 0 <= a <= |d.adapters|
      invariant |ticks| == a && |adapters| == a
      invariant forall i :: 0 <= i < a ==>
        Polled(d.adapters[i], inputs[i], ticks[i]) && adapters[i] == ticks[i].adapter
    {
      var t := PollAdapter(d.adapters[a], inputs[a]);
      ticks := ticks + [t];
      adapters := adapters + [t.adapter];
      a := a + 1;
    }
    next := Driver(adapters, true);
    forall i | 0 <= i < |d.adapters|
      ensures next.adapters[i].portClaimed == d.adapters[i].portClaimed
      ensures |next.adapters[i].pads| == Slots
      ensures forall p :: 0 <= p < Slots ==> next.adapters[i].pads[p].useCount == d.adapters[i].pads[p].useCount
    {
      assert Polled(d.adapters[i], inputs[i], ticks[i]);
    }
    if Valid(d) && d.timerActive {
      SameUseKeepsValid(d, next);
    }
  }

  /** Two states that agree on everything the invariant looks at: claims,
      use counts and the timer flag. Pad readings may differ. */
  predicate SameUse(d: Driver, e: Driver)
  {
    && SameShape(d, e)
    && d.timerActive == e.timerActive
    && (forall a :: 0 <= a < |d.adapters| ==> d.adapters[a].portClaimed == e.adapters[a].portClaimed)
    && (forall a, p :: 0 <= a < |d.adapters| && 0 <= p < |d.adapters[a].pads| ==>
          d.adapters[a].pads[p].useCount == e.adapters[a].pads[p].useCount)
  }

  lemma SameUseKeepsValid(d: Driver, e: Driver)
    requires SameUse(d, e) && Valid(d)
    ensures Valid(e)
  {
    forall a | 0 <= a < |d.adapters|
      ensures PortRequired(d.adapters[a]) == PortRequired(e.adapters[a])
    {
      PortRequiredFrame(d.adapters[a], e.adapters[a]);
    }
    TimerRequiredFrame(d.adapters, e.adapters);
  }

  /** The report made for a slot whose pad answered the poll with
      `answers[slot]` (the bytes shifted out during the five commands): a
      normal pad's two button bytes are translated, anything else reports
      an idle controller. */
  lemma ReportsFollowAnswers(answers: seq<seq<bv8>>, ad: Adapter, t: AdapterTick, slot: nat)
    requires |answers| == Slots && forall s :: 0 <= s < Slots ==> |answers[s]| == 5
    requires |ad.pads| == Slots && ad.portClaimed && slot < Slots
    requires Polled(ad, Responding(answers), t)
    ensures IsNormalPad(answers[slot][1], answers[slot][2]) ==>
      t.reports[slot] == Translate(answers[slot][3], answers[slot][4])
    ensures !IsNormalPad(answers[slot][1], answers[slot][2]) ==>
      && t.reports[slot].x == 0 && t.reports[slot].y == 0
      && forall k :: 0 <= k < KeyCount ==> !t.reports[slot].keys[k].pressed
  {
    PollRoundTrip(answers, slot);
    AbsentPadIsIdle();
  }
}
